=== FILE: README.md ===
# Sentiment analyzer: the `POST /api/analyze` route in Dafny

This project models the one piece of logic in the sentiment analyzer: the
`POST /api/analyze` handler of a Next.js app and its helper `extractJson`.
The handler takes a movie review and validates it. It asks a language model
(Gemini) to classify the review and pulls a JSON object out of the model's
free-text reply. It checks that object's `sentiment` and `explanation`,
stores one row through Prisma, and answers with the stored result.

The model has five modules.

- `Wrappers` holds `Option`.
- `Text` covers the JavaScript string operations the route uses:
  - the whitespace class shared by regex `\s` and `String.prototype.trim`;
  - `trim`;
  - UTF-16 `length`;
  - substring search.
- `Json` holds JSON values as `JSON.parse` and `request.json()` produce them, property access with the last duplicate key winning, and JavaScript truthiness.
- `Extract` covers `extractJson`. It describes the route's regular expression `/```json\s*([\s\S]*?)\s*```|({[\s\S]*})/` in three ways and proves them equal:
  1. the regex semantics: every candidate match, the one a backtracking engine prefers, and the leftmost position;
  2. a small matching engine that the model's `ExtractJson` runs;
  3. a closed form in terms of the first "```json", the first `{` and the last `}`.
- `Analyze` covers the handler as a pure function. Its inputs are:
  - the parsed request body;
  - the model's reply text, which is a parameter;
  - `JSON.parse`, which is an oracle `parse` returning `None` when it would throw;
  - the review table, which is an append-only log whose ids are positions.

  The handler returns an outcome, the trace of external calls it made (ask the model, parse, create a row) and the new table. `Respond` maps each outcome to its status code and JSON body.

`Scenarios` states what the handler does, end to end, on five typical requests: an accepted review, a short review, a prose reply, a "Mixed" label and a fenced reply.

Two comments in the route describe more than its code checks. The model
follows the code in both cases:

- The comment on `extractJson` (route.ts line 11) says it finds "a JSON object". But the bare alternative `({[\s\S]*})` is greedy: it runs from the first `{` to the **last** `}` of the reply, not to the end of the first balanced object.
- The prompt (route.ts line 42) asks for an `explanation` that is a one-sentence string. But the shape check tests `explanation` for truthiness only (`!explanation`), so a truthy number, array or object is accepted and stored.

## Model

| member | source | states |
|---|---|---|
| Text.Trim | src/app/api/analyze/route.ts:25 | `review.trim()` is empty exactly when the review is all whitespace; otherwise the result neither starts nor ends with whitespace |
| Text.IsWhitespaceIsJsClass | src/app/api/analyze/route.ts:13 | the whitespace class of regex `\s` and `trim()` is exactly WhiteSpace and LineTerminator of ECMA-262 sections 12.2 and 12.3, listed code point by code point |
| Text.TrimUnique | src/app/api/analyze/route.ts:25 | any cut of a string with whitespace before and after and non-whitespace ends (or nothing kept) is what `trim` returns |
| Text.TrimIdempotent | src/app/api/analyze/route.ts:29 | trimming the already-trimmed review again changes nothing, so the trimmed review passes the length check the same way |
| Text.Utf16Length | src/app/api/analyze/route.ts:25 | `.length` counts UTF-16 code units: between the number of code points and twice that, and equal to it exactly when no code point lies above U+FFFF |
| Text.Utf16LengthChar | src/app/api/analyze/route.ts:25 | one code point counts as one code unit up to U+FFFF and as two (a surrogate pair) above it |
| Text.Utf16LengthConcat | src/app/api/analyze/route.ts:25 | `.length` of a concatenation is the sum of the lengths; with the one-character values this fixes `.length` on every string |
| Json.Get | src/app/api/analyze/route.ts:70 | destructuring `{ sentiment, explanation }` from the parsed value yields `undefined` unless it is an object with that member; with duplicate names the last one wins |
| Json.FalsyValues | src/app/api/analyze/route.ts:71 | the `!value` tests treat exactly `undefined`, `null`, `false`, `0` and `""` as falsy (ToBoolean, section 7.1.2 of ECMA-262) |
| Extract.FencedAt | src/app/api/analyze/route.ts:13 | the first alternative at a position yields the match the backtracking order prefers (greedy `\s*`, lazy group, greedy `\s*`), and yields nothing exactly when no candidate exists there |
| Extract.FencedAtPreferred | src/app/api/analyze/route.ts:13 | skipping whitespace after "```json", stopping at the first "```", and dropping whitespace before it beats every other way the first alternative can match |
| Extract.BareAt | src/app/api/analyze/route.ts:13 | the second alternative at a `{` runs to the last `}` of the text, the longest candidate, and fails when no `}` follows |
| Extract.MatchAtIff | src/app/api/analyze/route.ts:13 | the engine finds a match at a position exactly when some alternative of the regex can match there |
| Extract.Search | src/app/api/analyze/route.ts:13 | `String.prototype.match` reports the match at the leftmost position where one exists |
| Extract.SearchIsReportedMatch | src/app/api/analyze/route.ts:13 | the engine's match satisfies the regex semantics: leftmost start, first alternative preferred, backtracking order within it; no match means no position can match |
| Extract.ReportedMatchUnique | src/app/api/analyze/route.ts:13 | the regex semantics determines a single match |
| Extract.OrTakesFirstNonEmpty | src/app/api/analyze/route.ts:14-15 | the logical or of `jsonMatch[1]` and `jsonMatch[2]` is group 1 unless that is `undefined` or empty, and otherwise group 2, whatever it holds |
| Extract.ExtractJson | src/app/api/analyze/route.ts:12-18 | `extractJson` never returns the empty string: an empty capture reads as no JSON |
| Extract.ExtractIsSubstring | src/app/api/analyze/route.ts:12-18 | `extractJson` returns `null` or a contiguous piece of its input |
| Extract.FirstFenceIsFirstFencedMatch | src/app/api/analyze/route.ts:13 | the fenced alternative can first match at the first "```json", and only when a "```" follows it |
| Extract.FirstBraceIsFirstBareMatch | src/app/api/analyze/route.ts:13 | the bare alternative can first match at the first `{`, and only when a `}` comes later |
| Extract.ExtractJsonMatchesSpec | src/app/api/analyze/route.ts:12-18 | `extractJson` equals the closed form on every input: the trimmed fenced interior when a closed "```json" starts before the first `{` that has a `}` after it, else first `{` to last `}`, else `null` |
| Extract.FencedResult | src/app/api/analyze/route.ts:13-17 | when the fenced block comes first, the result is its interior up to the first closing fence, trimmed; an all-whitespace interior gives `null` even if an object follows |
| Extract.BareResult | src/app/api/analyze/route.ts:13-17 | otherwise the result runs from the first `{` to the last `}`, so it starts with `{` and ends with `}` |
| Extract.ExtractJsonNoneIff | src/app/api/analyze/route.ts:13-17 | `extractJson` returns `null` exactly when neither alternative matches anywhere, or the fenced block wins and holds only whitespace |
| Extract.NoObjectNoFenceGivesNone | src/app/api/analyze/route.ts:13-17 | a reply with no "```json" and no `{` followed by a `}` gives `null` |
| Extract.NoBacktickNoFence | src/app/api/analyze/route.ts:13 | a reply without a backtick holds no opening fence |
| Extract.WholeObjectExtracted | src/app/api/analyze/route.ts:13-17 | a reply that starts with `{` and ends with `}` is returned whole |
| Extract.FencedBlockExtracted | src/app/api/analyze/route.ts:13-17 | a "```json" block holding a text on its own line, after prose with no backtick and no `{`, yields exactly that text |
| Extract.EmptyFenceShadowsRest | src/app/api/analyze/route.ts:13-17 | an empty "```json" block ahead of any `{` gives `null`, whatever follows it, an object included |
| Analyze.Create | src/app/api/analyze/route.ts:76-78 | `prisma.review.create` appends exactly the given row, keeps every earlier row and returns the new row's id |
| Analyze.Conclude | src/app/api/analyze/route.ts:70-80 | after a successful parse, a `null` result is exactly the `InternalError` case (destructuring throws), and otherwise the request succeeds exactly when the shape check passes and fails with `MissingFields` when it does not; a failure writes nothing; a success appends, as its last step, exactly one row holding the trimmed review and the parsed `sentiment` and `explanation` |
| Analyze.Reconcile | src/app/api/analyze/route.ts:47-80 | once the review is accepted, the model is asked exactly once and first; the answer is `NoJsonInReply` exactly when `extractJson` finds nothing, and `UnreadableReply` exactly when `JSON.parse` throws on what it found; a success stores the parsed fields; nothing is stored unless every check passes |
| Analyze.Handle | src/app/api/analyze/route.ts:20-85 | the whole handler: a `null` body throws at the destructuring and ends as `InternalError` with no call and no write; a refused review makes no external call; a failure leaves the table as it was; a success stores exactly one row with a whitelisted label, a truthy explanation and a trimmed review of at least 10 code units |
| Analyze.Respond | src/app/api/analyze/route.ts:26-84 | 400 answers exactly a refused review, 200 exactly a success; each failure answers `{ error }` with its own message: "Review text must be at least 10 characters long.", "The AI failed to generate a valid response.", "The AI response format was unreadable.", "The AI response was missing required fields." or "An internal server error occurred."; a success echoes `sentiment`, `explanation`, `reviewText` and `id` |
| Analyze.FailuresDistinguishable | src/app/api/analyze/route.ts:26-84 | no two failures share an answer, so a client can tell from the response which check stopped the request |
| Analyze.RejectionIff | src/app/api/analyze/route.ts:25-27 | the review is refused with 400 exactly when it is missing, not a string, or shorter than 10 once trimmed; a refused request calls nothing and changes nothing |
| Analyze.ReviewAcceptedIff | src/app/api/analyze/route.ts:25 | the guard accepts exactly a string whose trimmed form has at least 10 UTF-16 code units; its falsy test adds nothing, since `""` is too short anyway |
| Analyze.RejectionIgnoresModel | src/app/api/analyze/route.ts:25-27 | the outcome of a refused request does not depend on the model's reply or on the parser |
| Analyze.ShapeAcceptedIff | src/app/api/analyze/route.ts:71 | the shape check passes exactly for the strings "Positive", "Negative" and "Neutral" with a truthy explanation |
| Analyze.NearMissesRefused | src/app/api/analyze/route.ts:71-73 | "positive", "Mixed", " Positive" and "NEUTRAL" are refused whatever the explanation |
| Analyze.DecisionOrder | src/app/api/analyze/route.ts:55-80 | after validation the checks run in order (extraction, parsing, shape); each outcome holds exactly when its check is the first to fail; the trace is exactly ask, then parse when a span was found, then create on success; the table changes exactly on success |
| Analyze.ReplyReadOnlyThroughExtract | src/app/api/analyze/route.ts:47-55 | the model's reply affects the handler only through what `extractJson` finds in it |
| Analyze.SuccessEchoes | src/app/api/analyze/route.ts:76-80 | on success the answer echoes the parsed `sentiment` and `explanation` unchanged, `reviewText` is the trimmed review and `id` is the new row's id |
| Scenarios.PositiveReviewStored | src/app/api/analyze/route.ts:20-80 | an accepted review with a bare JSON reply labelled "Positive" stores one row and answers 200 with the exact fields |
| Scenarios.ShortReviewRefused | src/app/api/analyze/route.ts:25-27 | the review "short" is refused with 400 before the model is asked |
| Scenarios.ProseReplyRefused | src/app/api/analyze/route.ts:55-60 | a reply with no `{` and no backtick answers 500 "failed to generate" after one model call and stores nothing |
| Scenarios.MixedVerdictRefused | src/app/api/analyze/route.ts:70-73 | a reply labelled "Mixed" answers 500 "missing required fields" and stores nothing |
| Scenarios.FencedReplyReadAsBare | src/app/api/analyze/route.ts:13-80 | an object in a "```json" block after prose is handled exactly like the bare object |

## Left out

- The Gemini client, the model name and the prompt (route.ts lines 8 and 31-49) are left out. The model's reply text is a parameter of `Handle`.
- `JSON.parse` (line 64) is an oracle `parse`. Its grammar, RFC 8259, is not re-implemented.
- `request.json()` is left out. The body is given already parsed, so a malformed request body is not modelled; in the route it throws and hits the catch-all.
- Exceptions are left out: a failing model call, a failing store write, and any other error the catch-all at lines 82-85 turns into 500 "An internal server error occurred.". The one throw that follows from the data is modelled as `InternalError`: destructuring a `null` request body or a `null` parse result.
- Prisma is left out. The table is an append-only log, and a row's id is its position in the log; the real id type and format are not modelled.
- Analyze.Conclude: a truthy explanation of any JSON type is stored as is. The table's column types are not part of this model. If the schema declares `explanation` a string column, Prisma would reject a non-string value and the route would answer 500 from the catch-all.
- Json.Get models only an object's own members. Properties that JavaScript prototypes define are not modelled. No prototype of a JSON value defines `review`, `sentiment` or `explanation`.
- Text.Utf16Length: a Dafny `char` is a Unicode scalar value, so strings holding lone UTF-16 surrogates cannot be expressed.
- `console.log` and `console.error` (lines 52, 58, 66, 83) are left out, because they only log.
- The UI pages (`src/app/page.tsx`, `src/app/results/page.tsx`) are left out, because they only present the data.

=== FILE: analyze.dfy ===
/** The decision flow of `POST /api/analyze`: validate the review, ask the
    language model, extract and parse the JSON in its reply, check the two
    fields, store one row, answer.

    The model's reply, `JSON.parse` and the database are outside the model:
    the reply is a parameter, `JSON.parse` is an oracle `parse` (`None` when
    it throws), and the table is an append-only log whose ids are positions.
    The handler records the external calls it makes, in order, as a trace. */
module Analyze {
  import opened Wrappers
  import opened Text
  import opened Json
  import Extract

  /** Minimum trimmed review length, in UTF-16 code units. */
  const MinReviewLength: nat := 10

  /** The three accepted sentiment labels, compared case-sensitively. */
  const Categories: seq<string> := ["Positive", "Negative", "Neutral"]

  const ReviewTooShortMessage: string := "Review text must be at least 10 characters long."
  const NoJsonMessage: string := "The AI failed to generate a valid response."
  const UnreadableMessage: string := "The AI response format was unreadable."
  const MissingFieldsMessage: string := "The AI response was missing required fields."
  const InternalErrorMessage: string := "An internal server error occurred."

  /** A row of the review table. */
  datatype Row = Row(text: string, sentiment: string, explanation: Value)

  /** The review table: rows in creation order; a row's id is its index. */
  datatype Store = Store(rows: seq<Row>)

  /** `prisma.review.create`: appends one row and returns its id. */
  function Create(store: Store, row: Row): (r: (Store, nat))
    ensures |r.0.rows| == |store.rows| + 1
    ensures r.0.rows[..|store.rows|] == store.rows
    ensures r.1 == |store.rows| && r.0.rows[r.1] == row
  {
    (Store(store.rows + [row]), |store.rows|)
  }

  /** How a request ends. */
  datatype Outcome =
    | InvalidReview
    | NoJsonInReply
    | UnreadableReply
    | MissingFields
    | InternalError
    | Analyzed(sentiment: string, explanation: Value, reviewText: string, id: nat)

  /** The external calls the handler makes. */
  datatype Step =
    | AskModel(review: string)
    | ParseJson(text: string)
    | CreateRow(row: Row)

  datatype Handled = Handled(outcome: Outcome, trace: seq<Step>, store: Store)

  /** The input guard: `review` is truthy, a string, and its trimmed form is at
      least `MinReviewLength` UTF-16 code units long. */
  predicate ReviewAccepted(review: Option<Value>) {
    !(!Truthy(review) || !review.value.String? || Utf16Length(Trim(review.value.s)) < MinReviewLength)
  }

  /** `['Positive', 'Negative', 'Neutral'].includes(v)`. */
  predicate IsCategory(v: Option<Value>) {
    v.Some? && v.value.String? && v.value.s in Categories
  }

  /** The shape guard on the parsed reply. */
  predicate ShapeAccepted(sentiment: Option<Value>, explanation: Option<Value>) {
    !(!Truthy(sentiment) || !IsCategory(sentiment) || !Truthy(explanation))
  }

  /** No step of `trace` writes to the store. */
  predicate NoWrites(trace: seq<Step>) {
    forall i | 0 <= i < |trace| :: !trace[i].CreateRow?
  }

  /** What a finished request leaves behind: a failure writes nothing and
      leaves the store as it was; a success appends exactly the row it
      reports, as its last step, and writes nothing before. */
  predicate StoreDiscipline(before: Store, h: Handled) {
    && (!h.outcome.Analyzed? ==> h.store == before && NoWrites(h.trace))
    && (h.outcome.Analyzed? ==>
          var row := Row(h.outcome.reviewText, h.outcome.sentiment, h.outcome.explanation);
          && |h.store.rows| == |before.rows| + 1
          && h.store.rows[..|before.rows|] == before.rows
          && h.outcome.id == |before.rows|
          && h.store.rows[h.outcome.id] == row
          && |h.trace| > 0
          && h.trace[|h.trace| - 1] == CreateRow(row)
          && NoWrites(h.trace[..|h.trace| - 1]))
  }

  /** A success carries a whitelisted label, a truthy explanation and a
      trimmed review text of at least the minimum length. */
  predicate WellFormedAnalysis(o: Outcome) {
    o.Analyzed? ==>
      && o.sentiment in Categories
      && Truthy(Some(o.explanation))
      && Trim(o.reviewText) == o.reviewText
      && Utf16Length(o.reviewText) >= MinReviewLength
  }

  /** The model is asked at most once, and before anything else. */
  predicate AsksFirstAndOnce(trace: seq<Step>) {
    trace != [] ==> trace[0].AskModel? && forall i | 0 < i < |trace| :: !trace[i].AskModel?
  }

  /** The shape check on the parsed reply and the write that follows it;
      `asked` is the trace so far. */
  function Conclude(text: string, analysis: Value, asked: seq<Step>, store: Store): (h: Handled)
    requires NoWrites(asked)
    ensures StoreDiscipline(store, h)
    ensures |asked| <= |h.trace| <= |asked| + 1 && h.trace[..|asked|] == asked
    ensures forall i | |asked| <= i < |h.trace| :: h.trace[i].CreateRow?
    ensures h.outcome.Analyzed? ==> h.outcome.reviewText == text
    ensures h.outcome.Analyzed? ==>
              && h.outcome.sentiment in Categories
              && Truthy(Some(h.outcome.explanation))
    ensures h.outcome.InternalError? || h.outcome.MissingFields? || h.outcome.Analyzed?
    ensures h.outcome.InternalError? <==> analysis.Null?
    ensures !analysis.Null? ==>
              (h.outcome.Analyzed? <==> ShapeAccepted(Get(analysis, "sentiment"), Get(analysis, "explanation")))
    ensures h.outcome.Analyzed? ==>
              && Get(analysis, "sentiment") == Some(String(h.outcome.sentiment))
              && Get(analysis, "explanation") == Some(h.outcome.explanation)
  {
    if analysis.Null? then Handled(InternalError, asked, store)
    else
      var sentiment := Get(analysis, "sentiment");
      var explanation := Get(analysis, "explanation");
      if !ShapeAccepted(sentiment, explanation) then Handled(MissingFields, asked, store)
      else
        var row := Row(text, sentiment.value.s, explanation.value);
        var (store', id) := Create(store, row);
        var trace := asked + [CreateRow(row)];
        assert trace[..|asked|] == asked;
        Handled(Analyzed(row.sentiment, row.explanation, text, id), trace, store')
  }

  /** Everything after the input guard: ask the model, extract, parse, and
      conclude. */
  function Reconcile(text: string, reply: string, parse: string -> Option<Value>, store: Store): (h: Handled)
    ensures StoreDiscipline(store, h)
    ensures AsksFirstAndOnce(h.trace) && h.trace != [] && h.trace[0] == AskModel(text)
    ensures h.outcome.Analyzed? ==>
              && h.outcome.reviewText == text
              && h.outcome.sentiment in Categories
              && Truthy(Some(h.outcome.explanation))
    ensures !h.outcome.InvalidReview?
    ensures h.outcome.NoJsonInReply? <==> Extract.ExtractJson(reply).None?
    ensures Extract.ExtractJson(reply).Some? ==>
              (h.outcome.UnreadableReply? <==> parse(Extract.ExtractJson(reply).value).None?)
    ensures h.outcome.Analyzed? ==>
              var analysis := parse(Extract.ExtractJson(reply).value).value;
              && Get(analysis, "sentiment") == Some(String(h.outcome.sentiment))
              && Get(analysis, "explanation") == Some(h.outcome.explanation)
  {
    var asked := [AskModel(text)];
    match Extract.ExtractJson(reply)
    case None => Handled(NoJsonInReply, asked, store)
    case Some(span) =>
      var parsed := asked + [ParseJson(span)];
      match parse(span)
      case None => Handled(UnreadableReply, parsed, store)
      case Some(analysis) =>
        var h := Conclude(text, analysis, parsed, store);
        assert h.trace[0] == h.trace[..2][0] && h.trace[1] == h.trace[..2][1];
        h
  }

  /** The handler. `body` is the parsed request body, `reply` the text the
      model answers with, `parse` stands for `JSON.parse`. Destructuring
      `null` throws, which the route's catch-all turns into `InternalError`. */
  function Handle(body: Value, reply: string, parse: string -> Option<Value>, store: Store): (h: Handled)
    ensures body.Null? ==> h == Handled(InternalError, [], store)
    ensures h.outcome.InvalidReview? ==> h.trace == []
    ensures StoreDiscipline(store, h)
    ensures WellFormedAnalysis(h.outcome)
    ensures AsksFirstAndOnce(h.trace)
  {
    if body.Null? then Handled(InternalError, [], store)
    else
      var review := Get(body, "review");
      if !ReviewAccepted(review) then Handled(InvalidReview, [], store)
      else
        var text := Trim(review.value.s);
        TrimIdempotent(review.value.s);
        Reconcile(text, reply, parse, store)
  }

  /** An HTTP response: status code and JSON body. */
  datatype Response = Response(status: nat, body: Value)

  /** The error body `{ error: message }`. */
  function ErrorBody(message: string): Value {
    Object([Member("error", String(message))])
  }

  /** The message each failure answers with. */
  function ErrorMessage(o: Outcome): string
    requires !o.Analyzed?
  {
    match o
    case InvalidReview => ReviewTooShortMessage
    case NoJsonInReply => NoJsonMessage
    case UnreadableReply => UnreadableMessage
    case MissingFields => MissingFieldsMessage
    case InternalError => InternalErrorMessage
  }

  /** `NextResponse.json(...)` for each outcome: every failure answers
      `{ error }` with its own message. */
  function Respond(o: Outcome): (r: Response)
    ensures r.status == 400 <==> o.InvalidReview?
    ensures r.status == 200 <==> o.Analyzed?
    ensures r.status == 200 || r.status == 400 || r.status == 500
    ensures o.InvalidReview? ==> r == Response(400, ErrorBody(ReviewTooShortMessage))
    ensures o.NoJsonInReply? ==> r == Response(500, ErrorBody(NoJsonMessage))
    ensures o.UnreadableReply? ==> r == Response(500, ErrorBody(UnreadableMessage))
    ensures o.MissingFields? ==> r == Response(500, ErrorBody(MissingFieldsMessage))
    ensures o.InternalError? ==> r == Response(500, ErrorBody(InternalErrorMessage))
    ensures !o.Analyzed? ==> Get(r.body, "error").Some? && Get(r.body, "sentiment").None?
    ensures o.Analyzed? ==>
              && Get(r.body, "sentiment") == Some(String(o.sentiment))
              && Get(r.body, "explanation") == Some(o.explanation)
              && Get(r.body, "reviewText") == Some(String(o.reviewText))
              && Get(r.body, "id") == Some(Number(o.id as real))
              && Get(r.body, "error").None?
  {
    match o
    case Analyzed(sentiment, explanation, reviewText, id) =>
      var ms := [
        Member("sentiment", String(sentiment)),
        Member("explanation", explanation),
        Member("reviewText", String(reviewText)),
        Member("id", Number(id as real))];
      GetFindsLastMember(ms, 0);
      GetFindsLastMember(ms, 1);
      GetFindsLastMember(ms, 2);
      GetFindsLastMember(ms, 3);
      Response(200, Object(ms))
    case InvalidReview => Response(400, ErrorBody(ErrorMessage(o)))
    case _ => Response(500, ErrorBody(ErrorMessage(o)))
  }

  /** A client can tell every failure from every other by the answer alone:
      no two failure outcomes share a status code and message. */
  lemma FailuresDistinguishable(o1: Outcome, o2: Outcome)
    requires !o1.Analyzed? && !o2.Analyzed? && o1 != o2
    ensures Respond(o1) != Respond(o2)
  {
    var e1 := Get(Respond(o1).body, "error");
    var e2 := Get(Respond(o2).body, "error");
    GetFindsLastMember(ErrorBody(ErrorMessage(o1)).members, 0);
    GetFindsLastMember(ErrorBody(ErrorMessage(o2)).members, 0);
    assert e1 == Some(String(ErrorMessage(o1))) && e2 == Some(String(ErrorMessage(o2)));
    assert |ErrorMessage(o1)| != |ErrorMessage(o2)|;
  }

  // ---------------------------------------------------------------------------
  // Properties of the handler

  /** The input guard in plain terms: a string whose trimmed form has at
      least `MinReviewLength` code units. Truthiness adds nothing, since the
      only falsy string, "", is too short anyway. */
  lemma ReviewAcceptedIff(review: Option<Value>)
    ensures ReviewAccepted(review) <==>
              review.Some? && review.value.String? && Utf16Length(Trim(review.value.s)) >= MinReviewLength
  {
    if review.Some? && review.value.String? && review.value.s == [] {
      assert Trim(review.value.s) == [];
    }
  }

  /** A request whose body has a `review` is refused with 400 exactly when
      the review is not a string or is shorter than the minimum once trimmed
      (the falsy check only ever refuses what the length check refuses too),
      and then nothing is asked, parsed or written. */
  lemma RejectionIff(body: Value, reply: string, parse: string -> Option<Value>, store: Store)
    requires !body.Null?
    ensures var review := Get(body, "review");
            Handle(body, reply, parse, store).outcome.InvalidReview? <==>
              !(review.Some? && review.value.String? && Utf16Length(Trim(review.value.s)) >= MinReviewLength)
    ensures Handle(body, reply, parse, store).outcome.InvalidReview? ==>
              Handle(body, reply, parse, store) == Handled(InvalidReview, [], store)
  {
    var review := Get(body, "review");
    if review.Some? && review.value.String? && review.value.s == [] {
      assert Trim(review.value.s) == [];
    }
  }

  /** A refused request does not depend on the model's reply or on the
      parser: neither is consulted. */
  lemma RejectionIgnoresModel(body: Value, reply: string, parse: string -> Option<Value>,
                              reply': string, parse': string -> Option<Value>, store: Store)
    requires Handle(body, reply, parse, store).outcome.InvalidReview?
    ensures Handle(body, reply', parse', store) == Handle(body, reply, parse, store)
  {
  }

  /** The shape check accepts exactly the three labels, spelled exactly, with
      a truthy explanation. */
  lemma ShapeAcceptedIff(sentiment: Option<Value>, explanation: Option<Value>)
    ensures ShapeAccepted(sentiment, explanation) <==>
              && (|| sentiment == Some(String("Positive"))
                  || sentiment == Some(String("Negative"))
                  || sentiment == Some(String("Neutral")))
              && Truthy(explanation)
  {
  }

  /** Near misses of a label are refused, whatever the explanation. */
  lemma NearMissesRefused(explanation: Option<Value>)
    ensures !ShapeAccepted(Some(String("positive")), explanation)
    ensures !ShapeAccepted(Some(String("Mixed")), explanation)
    ensures !ShapeAccepted(Some(String(" Positive")), explanation)
    ensures !ShapeAccepted(Some(String("NEUTRAL")), explanation)
  {
    ShapeAcceptedIff(Some(String("positive")), explanation);
    ShapeAcceptedIff(Some(String("Mixed")), explanation);
    ShapeAcceptedIff(Some(String(" Positive")), explanation);
    ShapeAcceptedIff(Some(String("NEUTRAL")), explanation);
  }

  /** Once the review is accepted, the checks run in a fixed order, each
      failure stops the request before anything is written, and the trace
      shows how far the request got. */
  lemma DecisionOrder(body: Value, reply: string, parse: string -> Option<Value>, store: Store)
    requires !body.Null? && ReviewAccepted(Get(body, "review"))
    ensures var h := Handle(body, reply, parse, store);
            var text := Trim(Get(body, "review").value.s);
            var span := Extract.ExtractJson(reply);
            && (h.outcome.NoJsonInReply? <==> span.None?)
            && (h.outcome.NoJsonInReply? ==> h.trace == [AskModel(text)])
            && (span.Some? ==>
                  && (h.outcome.UnreadableReply? <==> parse(span.value).None?)
                  && (h.outcome.InternalError? <==> parse(span.value) == Some(Null))
                  && (parse(span.value).Some? && !parse(span.value).value.Null? ==>
                        var analysis := parse(span.value).value;
                        var accepted := ShapeAccepted(Get(analysis, "sentiment"), Get(analysis, "explanation"));
                        && (h.outcome.MissingFields? <==> !accepted)
                        && (h.outcome.Analyzed? <==> accepted))
                  && (!h.outcome.Analyzed? ==> h.trace == [AskModel(text), ParseJson(span.value)])
                  && (h.outcome.Analyzed? ==>
                        h.trace == [AskModel(text), ParseJson(span.value),
                                    CreateRow(Row(text, h.outcome.sentiment, h.outcome.explanation))]))
            && (h.store == store <==> !h.outcome.Analyzed?)
  {
    var h := Handle(body, reply, parse, store);
    assert h.outcome.Analyzed? ==> |h.store.rows| == |store.rows| + 1;
  }

  /** The model's reply matters only through what `extractJson` finds in it. */
  lemma ReplyReadOnlyThroughExtract(body: Value, reply: string, reply': string,
                                    parse: string -> Option<Value>, store: Store)
    requires Extract.ExtractJson(reply) == Extract.ExtractJson(reply')
    ensures Handle(body, reply, parse, store) == Handle(body, reply', parse, store)
  {
  }

  /** A success echoes the parsed `sentiment` and `explanation` unchanged,
      stores them with the trimmed review, and answers with that row's id. */
  lemma SuccessEchoes(body: Value, reply: string, parse: string -> Option<Value>, store: Store)
    requires Handle(body, reply, parse, store).outcome.Analyzed?
    ensures var o := Handle(body, reply, parse, store).outcome;
            var span := Extract.ExtractJson(reply);
            && !body.Null? && Get(body, "review").Some? && Get(body, "review").value.String?
            && o.reviewText == Trim(Get(body, "review").value.s)
            && span.Some? && parse(span.value).Some?
            && Get(parse(span.value).value, "sentiment") == Some(String(o.sentiment))
            && Get(parse(span.value).value, "explanation") == Some(o.explanation)
            && o.id == |store.rows|
    ensures var o := Handle(body, reply, parse, store).outcome;
            var r := Respond(o);
            && r.status == 200
            && Get(r.body, "reviewText") == Some(String(Trim(Get(body, "review").value.s)))
            && Get(r.body, "id") == Some(Number(|store.rows| as real))
  {
  }
}

=== FILE: extract.dfy ===
/** `extractJson` of the analyze route: the JavaScript regular expression
      /```json\s*([\s\S]*?)\s*```|({[\s\S]*})/
    applied with `String.prototype.match` (no global flag), followed by
    `match[1] || match[2]`, with an empty result read as "nothing found".

    Three descriptions are given and proved to agree:
    - the regex semantics: every way each alternative can match at a position
      (`FencedCandidate`, `BareCandidate`), the one a backtracking engine
      reports there (`FencedPreferred`, `BarePreferred`), and the leftmost
      position with the first alternative tried first (`IsReportedMatch`);
    - the engine itself (`FencedAt`, `BareAt`, `MatchAt`, `Search`), which is
      what `ExtractJson` uses;
    - a closed form in terms of the first "```json", the first "{" and the
      last "}" (`ExtractJsonSpec`). */
module Extract {
  import opened Wrappers
  import opened Text
  import opened Json

  /** The literal that opens the fenced alternative. */
  const OpenFence: string := "```json"

  /** The literal that closes the fenced alternative. */
  const CloseFence: string := "```"

  /** A match of the route's regex starting at `start`. For the fenced
      alternative `capStart..capEnd` is capture group 1 and `close` is where
      the closing fence begins; for the bare alternative `start..end` is both
      the whole match and capture group 2. */
  datatype Match =
    | Fenced(start: nat, capStart: nat, capEnd: nat, close: nat)
    | Bare(start: nat, end: nat)

  /** The capture group of `m` lies inside `t`. */
  predicate WellFormed(t: string, m: Match) {
    match m
    case Fenced(_, c, e, _) => c <= e <= |t|
    case Bare(p, e) => p <= e <= |t|
  }

  // ---------------------------------------------------------------------------
  // Regex semantics

  /** "```json", `\s*` over `t[p+7..c]`, the lazy group `t[c..e]`, `\s*` over
      `t[e..f]`, then "```" at `f`: one way the first alternative matches at `p`. */
  predicate FencedCandidate(t: string, p: nat, c: nat, e: nat, f: nat) {
    && HasAt(t, p, OpenFence)
    && p + |OpenFence| <= c <= e <= f
    && HasAt(t, f, CloseFence)
    && WhitespaceIn(t, p + |OpenFence|, c)
    && WhitespaceIn(t, e, f)
  }

  /** The candidate a backtracking engine reports: the greedy first `\s*`
      takes as much as it can (largest `c`), then the lazy group is as short
      as it can be (smallest `e`), then the greedy second `\s*` takes as much
      as it can (largest `f`). */
  ghost predicate FencedPreferred(t: string, p: nat, c: nat, e: nat, f: nat) {
    && FencedCandidate(t, p, c, e, f)
    && forall c': nat, e': nat, f': nat | FencedCandidate(t, p, c', e', f') ::
         c' < c || (c' == c && (e < e' || (e == e' && f' <= f)))
  }

  /** "{", the greedy `[\s\S]*`, then "}" ending just before `e`: one way the
      second alternative matches at `p`. */
  predicate BareCandidate(t: string, p: nat, e: nat) {
    p + 2 <= e <= |t| && t[p] == '{' && t[e - 1] == '}'
  }

  /** The greedy body makes the engine report the longest bare candidate. */
  ghost predicate BarePreferred(t: string, p: nat, e: nat) {
    && BareCandidate(t, p, e)
    && forall e': nat | BareCandidate(t, p, e') :: e' <= e
  }

  /** Some alternative of the regex matches at `p`. */
  ghost predicate CanMatchAt(t: string, p: nat) {
    || (exists c: nat, e: nat, f: nat :: FencedCandidate(t, p, c, e, f))
    || (exists e: nat :: BareCandidate(t, p, e))
  }

  /** `m` is what `String.prototype.match` reports: it starts at the leftmost
      position where the regex matches, it uses the first alternative when
      that one matches there, and within the alternative it is the match the
      backtracking order reaches first. */
  ghost predicate IsReportedMatch(t: string, m: Match) {
    && CanMatchAt(t, m.start)
    && (forall k: nat | k < m.start :: !CanMatchAt(t, k))
    && match m
       case Fenced(p, c, e, f) => FencedPreferred(t, p, c, e, f)
       case Bare(p, e) =>
         && (forall c: nat, e': nat, f: nat :: !FencedCandidate(t, p, c, e', f))
         && BarePreferred(t, p, e)
  }

  // ---------------------------------------------------------------------------
  // The matching engine

  /** The first alternative tried at `p`. */
  function FencedAt(t: string, p: nat): (r: Option<Match>)
    ensures r.Some? ==> r.value.Fenced? && r.value.start == p
    ensures r.Some? ==> FencedPreferred(t, p, r.value.capStart, r.value.capEnd, r.value.close)
    ensures r.None? ==> forall c: nat, e: nat, f: nat :: !FencedCandidate(t, p, c, e, f)
  {
    if !HasAt(t, p, OpenFence) then None
    else
      var q := p + |OpenFence|;
      match IndexOf(t, CloseFence, q)
      case None => None
      case Some(f) =>
        assert t[f] == CloseFence[0];
        var c := SkipWhitespace(t, q);
        var e := SkipWhitespaceBack(t, c, f);
        FencedAtPreferred(t, p, c, e, f);
        Some(Fenced(p, c, e, f))
  }

  /** The capture `FencedAt` computes — whitespace skipped after the opening,
      up to the first closing fence, with the whitespace before that fence
      left out — is the one the backtracking order reaches first. */
  lemma FencedAtPreferred(t: string, p: nat, c: nat, e: nat, f: nat)
    requires HasAt(t, p, OpenFence)
    requires IndexOf(t, CloseFence, p + |OpenFence|) == Some(f)
    requires c == SkipWhitespace(t, p + |OpenFence|)
    requires c <= f
    requires e == SkipWhitespaceBack(t, c, f)
    ensures FencedPreferred(t, p, c, e, f)
  {
    var q := p + |OpenFence|;
    assert t[f] == CloseFence[0];
    forall c': nat, e': nat, f': nat | FencedCandidate(t, p, c', e', f')
      ensures c' < c || (c' == c && (e < e' || (e == e' && f' <= f)))
    {
      assert t[f'] == CloseFence[0];
      assert f <= f';
    }
  }

  /** The second alternative tried at `p`. */
  function BareAt(t: string, p: nat): (r: Option<Match>)
    ensures r.Some? ==> r.value.Bare? && r.value.start == p && BarePreferred(t, p, r.value.end)
    ensures r.None? ==> forall e: nat :: !BareCandidate(t, p, e)
  {
    if p < |t| && t[p] == '{' then
      match LastIndexOfChar(t, '}')
      case None => None
      case Some(l) => if p < l then Some(Bare(p, l + 1)) else None
    else None
  }

  /** Both alternatives at `p`, the first one first. */
  function MatchAt(t: string, p: nat): (r: Option<Match>)
    ensures r.Some? ==> r.value.start == p && WellFormed(t, r.value)
  {
    var fenced := FencedAt(t, p);
    if fenced.Some? then fenced else BareAt(t, p)
  }

  /** The engine finds a match at `p` exactly when the regex can match there. */
  lemma MatchAtIff(t: string, p: nat)
    ensures MatchAt(t, p).Some? <==> CanMatchAt(t, p)
  {
    var fenced := FencedAt(t, p);
    if fenced.Some? {
      assert FencedCandidate(t, p, fenced.value.capStart, fenced.value.capEnd, fenced.value.close);
    } else {
      var bare := BareAt(t, p);
      if bare.Some? {
        assert BareCandidate(t, p, bare.value.end);
      }
    }
  }

  /** The leftmost match at or after `p`. */
  function Search(t: string, p: nat): (r: Option<Match>)
    requires p <= |t|
    ensures r.Some? ==> p <= r.value.start < |t| && MatchAt(t, r.value.start) == r
    ensures forall k | p <= k < (if r.Some? then r.value.start else |t|) :: MatchAt(t, k).None?
    decreases |t| - p
  {
    if p == |t| then None
    else
      var here := MatchAt(t, p);
      if here.Some? then here else Search(t, p + 1)
  }

  /** No alternative can match at or past the end of the text. */
  lemma NoMatchPastEnd(t: string, p: nat)
    requires |t| <= p
    ensures MatchAt(t, p).None?
  {
  }

  /** The engine reports exactly the match the regex semantics prescribes,
      and nothing when the regex matches nowhere. */
  lemma SearchIsReportedMatch(t: string)
    ensures Search(t, 0).Some? ==> IsReportedMatch(t, Search(t, 0).value)
    ensures Search(t, 0).None? ==> forall p: nat :: !CanMatchAt(t, p)
  {
    var r := Search(t, 0);
    forall p: nat | (if r.Some? then p < r.value.start else true)
      ensures !CanMatchAt(t, p)
    {
      if |t| <= p {
        NoMatchPastEnd(t, p);
      } else {
        assert MatchAt(t, p).None?;
      }
      MatchAtIff(t, p);
    }
    if r.Some? {
      var m := r.value;
      MatchAtIff(t, m.start);
      if m.Bare? {
        assert FencedAt(t, m.start).None?;
      }
    }
  }

  /** The regex semantics pins down a single match. */
  lemma ReportedMatchUnique(t: string, m1: Match, m2: Match)
    requires IsReportedMatch(t, m1) && IsReportedMatch(t, m2)
    ensures m1 == m2
  {
    assert m1.start == m2.start;
  }

  // ---------------------------------------------------------------------------
  // extractJson

  /** The capture groups of a match; `None` is a group that did not take part
      in the match (JavaScript `undefined`). */
  function Groups(t: string, m: Match): (Option<string>, Option<string>)
    requires WellFormed(t, m)
  {
    match m
    case Fenced(_, c, e, _) => (Some(t[c..e]), None)
    case Bare(p, e) => (None, Some(t[p..e]))
  }

  /** JavaScript `a || b` on two `string | undefined` values. */
  function Or(a: Option<string>, b: Option<string>): Option<string> {
    if Truthy(OfString(a)) then a else b
  }

  /** `a || b` on strings: the first group unless it is `undefined` or empty,
      and then the second, whatever it is. */
  lemma OrTakesFirstNonEmpty(a: Option<string>, b: Option<string>)
    ensures a.Some? && a.value != [] ==> Or(a, b) == a
    ensures a.None? || a.value == [] ==> Or(a, b) == b
  {
  }

  /** `extractJson`: group 1 or group 2 of the reported match, or `None`
      (JavaScript `null`) when there is no match or both groups are falsy. */
  function ExtractJson(text: string): (r: Option<string>)
    ensures r.Some? ==> r.value != []
  {
    match Search(text, 0)
    case None => None
    case Some(m) =>
      var (g1, g2) := Groups(text, m);
      if Truthy(OfString(Or(g1, g2))) then Or(g1, g2) else None
  }

  /** Whatever `extractJson` returns is a contiguous piece of its input. */
  lemma ExtractIsSubstring(t: string)
    ensures ExtractJson(t).Some? ==>
              exists i, j | 0 <= i <= j <= |t| :: ExtractJson(t).value == t[i..j]
  {
    match Search(t, 0)
    case None =>
    case Some(m) =>
      match m
      case Fenced(_, c, e, _) =>
        if ExtractJson(t).Some? { assert ExtractJson(t).value == t[c..e]; }
      case Bare(p, e) =>
        assert ExtractJson(t).value == t[p..e];
  }

  // ---------------------------------------------------------------------------
  // Closed form

  /** The first "```json" in `t` and the first "```" after it, when both exist. */
  function FirstFence(t: string): (r: Option<(nat, nat)>)
    ensures r.Some? ==> HasAt(t, r.value.0, OpenFence) && HasAt(t, r.value.1, CloseFence)
    ensures r.Some? ==> r.value.0 + |OpenFence| <= r.value.1
    ensures r.Some? ==> forall k: nat | k < r.value.0 :: !HasAt(t, k, OpenFence)
    ensures r.Some? ==> forall k | r.value.0 + |OpenFence| <= k < r.value.1 :: !HasAt(t, k, CloseFence)
  {
    match IndexOf(t, OpenFence, 0)
    case None => None
    case Some(o) =>
      match IndexOf(t, CloseFence, o + |OpenFence|)
      case None => None
      case Some(f) => Some((o, f))
  }

  /** The first "{" in `t` and the last "}", when the latter follows the former. */
  function FirstBrace(t: string): (r: Option<(nat, nat)>)
    ensures r.Some? ==> r.value.0 < r.value.1 < |t| && t[r.value.0] == '{' && t[r.value.1] == '}'
    ensures r.Some? ==> forall k | 0 <= k < r.value.0 :: t[k] != '{'
    ensures r.Some? ==> forall k | r.value.1 < k < |t| :: t[k] != '}'
    ensures r.None? ==> forall b, l | 0 <= b < l < |t| :: !(t[b] == '{' && t[l] == '}')
  {
    match IndexOfChar(t, '{', 0)
    case None => None
    case Some(b) =>
      match LastIndexOfChar(t, '}')
      case None => None
      case Some(l) => if b < l then Some((b, l)) else None
  }

  /** `extractJson` stated without the regex engine: when a "```json" with a
      closing "```" after it starts before the first "{" that has a "}"
      after it, the trimmed text between the opening and the first closing
      fence (`None` if that is empty); otherwise the text from the first "{"
      to the last "}"; otherwise `None`. */
  function ExtractJsonSpec(t: string): Option<string> {
    var fence := FirstFence(t);
    var brace := FirstBrace(t);
    if fence.Some? && (brace.None? || fence.value.0 < brace.value.0) then
      var inner := Trim(t[fence.value.0 + |OpenFence|..fence.value.1]);
      if inner == [] then None else Some(inner)
    else if brace.Some? then
      Some(t[brace.value.0..brace.value.1 + 1])
    else
      None
  }

  /** "```json" does not occur again less than its own length after an
      occurrence. */
  lemma OpenFenceNotRepeatedWithin(t: string, o: nat, d: nat)
    requires HasAt(t, o, OpenFence) && 0 < d < |OpenFence| && o + d + |OpenFence| <= |t|
    ensures !HasAt(t, o + d, OpenFence)
  {
    assert OpenFence[0] == '`' && OpenFence[2] == '`';
    assert t[o + d] == OpenFence[d];
    assert d + 2 < |OpenFence| ==> t[o + (d + 2)] == OpenFence[d + 2];
  }

  /** Two occurrences of "```json" never overlap. */
  lemma OpenFencesApart(t: string, o: nat, p: nat)
    requires HasAt(t, o, OpenFence) && HasAt(t, p, OpenFence) && o < p
    ensures o + |OpenFence| <= p
  {
    if p < o + |OpenFence| {
      OpenFenceNotRepeatedWithin(t, o, p - o);
    }
  }

  /** Every "```json" begins with a "```". */
  lemma OpenFenceHasCloseFence(t: string, p: nat)
    requires HasAt(t, p, OpenFence)
    ensures HasAt(t, p, CloseFence)
  {
    forall i | 0 <= i < |CloseFence| ensures t[p + i] == CloseFence[i] {
      assert t[p + i] == OpenFence[i];
    }
  }

  /** The first alternative matches first at the first "```json", and there
      only when a "```" follows it. */
  lemma FirstFenceIsFirstFencedMatch(t: string)
    ensures forall p: nat :: FencedAt(t, p).Some? ==> FirstFence(t).Some? && FirstFence(t).value.0 <= p
    ensures FirstFence(t).Some? ==>
              && FencedAt(t, FirstFence(t).value.0).Some?
              && FencedAt(t, FirstFence(t).value.0).value.close == FirstFence(t).value.1
  {
    forall p: nat | FencedAt(t, p).Some?
      ensures FirstFence(t).Some? && FirstFence(t).value.0 <= p
    {
      var o := IndexOf(t, OpenFence, 0).value;
      if o < p {
        OpenFencesApart(t, o, p);
        OpenFenceHasCloseFence(t, p);
      }
    }
  }

  /** The second alternative matches first at the first "{", and there only
      when a "}" follows it; it then runs to the last "}". */
  lemma FirstBraceIsFirstBareMatch(t: string)
    ensures forall p: nat :: BareAt(t, p).Some? ==> FirstBrace(t).Some? && FirstBrace(t).value.0 <= p
    ensures FirstBrace(t).Some? ==>
              BareAt(t, FirstBrace(t).value.0) == Some(Bare(FirstBrace(t).value.0, FirstBrace(t).value.1 + 1))
  {
  }

  /** `Search` from the start returns the match at the first position where
      one exists. */
  lemma SearchFindsFirst(t: string, s: nat)
    requires MatchAt(t, s).Some?
    requires forall k: nat | k < s :: MatchAt(t, k).None?
    ensures Search(t, 0) == MatchAt(t, s)
  {
    if |t| <= s { NoMatchPastEnd(t, s); }
    var r := Search(t, 0);
    assert r.Some?;
    assert r.value.start == s;
  }

  /** When no position matches, `Search` reports nothing. */
  lemma SearchFindsNothing(t: string)
    requires forall k: nat :: MatchAt(t, k).None?
    ensures Search(t, 0).None?
  {
  }

  /** Capture group 1 of a fenced match is the trimmed text between the
      opening "```json" and the first closing "```". */
  lemma FencedCaptureIsTrim(t: string, p: nat)
    requires FencedAt(t, p).Some?
    ensures FencedAt(t, p).value.close <= |t|
    ensures var m := FencedAt(t, p).value;
            t[m.capStart..m.capEnd] == Trim(t[p + |OpenFence|..m.close])
  {
    var q := p + |OpenFence|;
    var f := IndexOf(t, CloseFence, q).value;
    assert t[f] == CloseFence[0];
    var c := SkipWhitespace(t, q);
    var e := SkipWhitespaceBack(t, c, f);
    assert FencedAt(t, p) == Some(Fenced(p, c, e, f));
    TrimOfSlice(t, q, f, c, e);
  }

  /** If `t[c..e]` is `t[lo..hi]` with whitespace cut off both ends, it is
      the trim of `t[lo..hi]`. */
  lemma TrimOfSlice(t: string, lo: nat, hi: nat, c: nat, e: nat)
    requires lo <= c <= e <= hi <= |t|
    requires WhitespaceIn(t, lo, c) && WhitespaceIn(t, e, hi)
    requires c < e ==> !IsWhitespace(t[c]) && !IsWhitespace(t[e - 1])
    ensures t[c..e] == Trim(t[lo..hi])
  {
    var s := t[lo..hi];
    WhitespaceInSlice(t, lo, hi, 0, c - lo);
    WhitespaceInSlice(t, lo, hi, e - lo, hi - lo);
    assert c < e ==> s[c - lo] == t[c] && s[e - lo - 1] == t[e - 1];
    assert IsTrimOf(s, c - lo, e - lo);
    TrimUnique(s, c - lo, e - lo);
    SliceOfSlice(t, lo, hi, c - lo, e - lo);
  }

  lemma SliceOfSlice(t: string, lo: nat, hi: nat, a: nat, b: nat)
    requires lo <= hi <= |t| && a <= b <= hi - lo
    ensures t[lo..hi][a..b] == t[lo + a..lo + b]
  {
    var r := t[lo..hi][a..b];
    assert forall k | 0 <= k < |r| :: r[k] == t[lo + a..lo + b][k];
  }

  /** Whitespace in a range of `t[lo..hi]` is whitespace in the shifted
      range of `t`. */
  lemma WhitespaceInSlice(t: string, lo: nat, hi: nat, a: nat, b: nat)
    requires lo <= hi <= |t| && a <= b <= hi - lo
    requires WhitespaceIn(t, lo + a, lo + b)
    ensures WhitespaceIn(t[lo..hi], a, b)
  {
    forall k | a <= k < b ensures IsWhitespace(t[lo..hi][k]) {
      assert t[lo..hi][k] == t[lo + k];
    }
  }

  /** What `ExtractJson` returns for each kind of reported match. */
  lemma ExtractOfMatch(t: string)
    ensures Search(t, 0).None? ==> ExtractJson(t).None?
    ensures Search(t, 0).Some? && Search(t, 0).value.Fenced? ==>
              var m := Search(t, 0).value;
              ExtractJson(t) == if m.capStart < m.capEnd then Some(t[m.capStart..m.capEnd]) else None
    ensures Search(t, 0).Some? && Search(t, 0).value.Bare? ==>
              ExtractJson(t) == Some(t[Search(t, 0).value.start..Search(t, 0).value.end])
  {
  }

  /** The closed form's first case: the fenced block comes first. */
  lemma FenceFirstCase(t: string)
    requires FenceComesFirst(t)
    ensures var (o, f) := FirstFence(t).value;
            var inner := Trim(t[o + |OpenFence|..f]);
            ExtractJson(t) == if inner == [] then None else Some(inner)
  {
    FirstFenceIsFirstFencedMatch(t);
    FirstBraceIsFirstBareMatch(t);
    var o := FirstFence(t).value.0;
    SearchFindsFirst(t, o);
    FencedCaptureIsTrim(t, o);
    ExtractOfMatch(t);
  }

  /** The closed form's second case: the first "{" with a "}" after it comes
      first. */
  lemma BraceFirstCase(t: string)
    requires !FenceComesFirst(t) && FirstBrace(t).Some?
    ensures ExtractJson(t) == Some(t[FirstBrace(t).value.0..FirstBrace(t).value.1 + 1])
  {
    FirstFenceIsFirstFencedMatch(t);
    FirstBraceIsFirstBareMatch(t);
    var fence := FirstFence(t);
    var b := FirstBrace(t).value.0;
    assert fence.Some? ==> t[fence.value.0 + 0] == OpenFence[0];
    SearchFindsFirst(t, b);
    ExtractOfMatch(t);
  }

  /** The closed form's last case: neither alternative matches anywhere. */
  lemma NeitherCase(t: string)
    requires FirstFence(t).None? && FirstBrace(t).None?
    ensures ExtractJson(t) == ExtractJsonSpec(t)
  {
    FirstFenceIsFirstFencedMatch(t);
    FirstBraceIsFirstBareMatch(t);
    SearchFindsNothing(t);
    ExtractOfMatch(t);
  }

  /** The engine-based `ExtractJson` agrees with the closed form on every
      input. */
  lemma ExtractJsonMatchesSpec(t: string)
    ensures ExtractJson(t) == ExtractJsonSpec(t)
  {
    if FenceComesFirst(t) {
      FenceFirstCase(t);
      var (o, f) := FirstFence(t).value;
      var inner := Trim(t[o + |OpenFence|..f]);
      assert ExtractJsonSpec(t) == if inner == [] then None else Some(inner);
    } else if FirstBrace(t).Some? {
      BraceFirstCase(t);
      assert ExtractJsonSpec(t) == Some(t[FirstBrace(t).value.0..FirstBrace(t).value.1 + 1]);
    } else {
      NeitherCase(t);
    }
  }

  // ---------------------------------------------------------------------------
  // Consequences

  /** A "```json" block closed by a later "```" starts before any "{" that
      has a "}" after it, so the first alternative wins. */
  predicate FenceComesFirst(t: string) {
    var fence := FirstFence(t);
    var brace := FirstBrace(t);
    fence.Some? && (brace.None? || fence.value.0 < brace.value.0)
  }

  /** When the fenced block comes first, the result is its interior up to the
      first closing fence, trimmed; an all-whitespace interior gives `None`
      even when a "{...}" follows. A non-empty result starts and ends with a
      non-whitespace character. */
  lemma FencedResult(t: string)
    requires FenceComesFirst(t)
    ensures var (o, f) := FirstFence(t).value;
            var interior := t[o + |OpenFence|..f];
            && (AllWhitespace(interior) ==> ExtractJson(t).None?)
            && (!AllWhitespace(interior) ==> ExtractJson(t) == Some(Trim(interior)))
    ensures ExtractJson(t).Some? ==>
              var r := ExtractJson(t).value;
              !IsWhitespace(r[0]) && !IsWhitespace(r[|r| - 1])
  {
    var (o, f) := FirstFence(t).value;
    var inner := Trim(t[o + |OpenFence|..f]);
    FenceFirstCase(t);
  }

  /** Otherwise, when some "{" has a "}" after it, the result runs from the
      first "{" to the last "}" of the whole text. */
  lemma BareResult(t: string)
    requires !FenceComesFirst(t) && FirstBrace(t).Some?
    ensures var (b, l) := FirstBrace(t).value;
            ExtractJson(t) == Some(t[b..l + 1])
    ensures var r := ExtractJson(t).value;
            r[0] == '{' && r[|r| - 1] == '}'
  {
    var (b, l) := FirstBrace(t).value;
    BraceFirstCase(t);
    BracedSlice(t, b, l);
  }

  lemma BracedSlice(t: string, b: nat, l: nat)
    requires b < l < |t| && t[b] == '{' && t[l] == '}'
    ensures var r := t[b..l + 1];
            r[0] == '{' && r[|r| - 1] == '}'
  {
    var r := t[b..l + 1];
    assert r[0] == t[b] && r[|r| - 1] == t[l];
  }

  /** `extractJson` returns `null` exactly when neither alternative can match
      anywhere, or the fenced block wins and holds only whitespace. */
  lemma ExtractJsonNoneIff(t: string)
    ensures ExtractJson(t).None? <==>
              || (FirstFence(t).None? && FirstBrace(t).None?)
              || (FenceComesFirst(t) &&
                  AllWhitespace(t[FirstFence(t).value.0 + |OpenFence|..FirstFence(t).value.1]))
  {
    ExtractJsonMatchesSpec(t);
  }

  /** A text without any "```json" and without any "{" that has a "}" after
      it yields `None`. */
  lemma NoObjectNoFenceGivesNone(t: string)
    requires forall k: nat :: !HasAt(t, k, OpenFence)
    requires forall b, l | 0 <= b < l < |t| :: !(t[b] == '{' && t[l] == '}')
    ensures ExtractJson(t).None?
  {
    ExtractJsonMatchesSpec(t);
  }

  /** A text without a backtick holds no opening fence. */
  lemma NoBacktickNoFence(t: string)
    requires forall k | 0 <= k < |t| :: t[k] != '`'
    ensures forall k: nat :: !HasAt(t, k, OpenFence)
  {
    forall k: nat | k + |OpenFence| <= |t| ensures !HasAt(t, k, OpenFence) {
      assert t[k + 0] != OpenFence[0];
    }
  }

  /** A reply that is exactly one brace-delimited text is extracted whole. */
  lemma WholeObjectExtracted(t: string)
    requires 2 <= |t| && t[0] == '{' && t[|t| - 1] == '}'
    ensures ExtractJson(t) == Some(t)
  {
    ExtractJsonMatchesSpec(t);
    assert t[0 + 0] != OpenFence[0];
    assert FirstBrace(t) == Some((0, |t| - 1));
    assert t[0..|t|] == t;
  }

  /** A "```json" block holding `body` on its own lines, after prose with
      neither a backtick nor a "{", yields `body` itself. */
  lemma FencedBlockExtracted(prose: string, body: string)
    requires forall k | 0 <= k < |prose| :: prose[k] != '`' && prose[k] != '{'
    requires forall k | 0 <= k < |body| :: body[k] != '`'
    requires body != [] && !IsWhitespace(body[0]) && !IsWhitespace(body[|body| - 1])
    ensures ExtractJson(prose + OpenFence + "\n" + body + "\n" + CloseFence) == Some(body)
  {
    var t := prose + OpenFence + "\n" + body + "\n" + CloseFence;
    FencedBlockComesFirst(prose, body);
    FencedBlockInterior(prose, body);
    TrimLine(body);
    FencedResult(t);
  }

  /** The fenced block of that text comes before any "{". */
  lemma FencedBlockComesFirst(prose: string, body: string)
    requires forall k | 0 <= k < |prose| :: prose[k] != '`' && prose[k] != '{'
    requires forall k | 0 <= k < |body| :: body[k] != '`'
    ensures var t := prose + OpenFence + "\n" + body + "\n" + CloseFence;
            && FirstFence(t) == Some((|prose|, |t| - |CloseFence|))
            && FenceComesFirst(t)
  {
    var t := prose + OpenFence + "\n" + body + "\n" + CloseFence;
    FencedBlockFence(prose, body);
    forall k | 0 <= k < |prose| + |OpenFence| ensures t[k] != '{' {
      if k < |prose| {
        assert t[k] == prose[k];
      }
    }
  }

  /** Between the fences of that text lies `body` on a line of its own. */
  lemma FencedBlockInterior(prose: string, body: string)
    ensures var t := prose + OpenFence + "\n" + body + "\n" + CloseFence;
            t[|prose| + |OpenFence|..|t| - |CloseFence|] == "\n" + body + "\n"
  {
  }

  /** Where the fences of the text in `FencedBlockExtracted` are. */
  lemma FencedBlockFence(prose: string, body: string)
    requires forall k | 0 <= k < |prose| :: prose[k] != '`'
    requires forall k | 0 <= k < |body| :: body[k] != '`'
    ensures var t := prose + OpenFence + "\n" + body + "\n" + CloseFence;
            FirstFence(t) == Some((|prose|, |t| - |CloseFence|))
  {
    FencedBlockOpenAt(prose, body);
    FencedBlockCloseAt(prose, body);
    var t := prose + OpenFence + "\n" + body + "\n" + CloseFence;
    FirstFenceAt(t, |prose|, |t| - |CloseFence|);
  }

  lemma FencedBlockOpenAt(prose: string, body: string)
    requires forall k | 0 <= k < |prose| :: prose[k] != '`'
    ensures var t := prose + OpenFence + "\n" + body + "\n" + CloseFence;
            IndexOf(t, OpenFence, 0) == Some(|prose|)
  {
    var t := prose + OpenFence + "\n" + body + "\n" + CloseFence;
    forall i | 0 <= i < |OpenFence| ensures t[|prose| + i] == OpenFence[i] {
    }
    forall k | 0 <= k < |prose| ensures t[k] != '`' {
      assert t[k] == prose[k];
    }
    FirstOccurrence(t, OpenFence, 0, |prose|);
  }

  lemma FencedBlockCloseAt(prose: string, body: string)
    requires forall k | 0 <= k < |body| :: body[k] != '`'
    ensures var t := prose + OpenFence + "\n" + body + "\n" + CloseFence;
            IndexOf(t, CloseFence, |prose| + |OpenFence|) == Some(|t| - |CloseFence|)
  {
    var t := prose + OpenFence + "\n" + body + "\n" + CloseFence;
    var o := |prose| + |OpenFence|;
    var f := |t| - |CloseFence|;
    forall i | 0 <= i < |CloseFence| ensures t[f + i] == CloseFence[i] {
    }
    forall k | o <= k < f ensures t[k] != '`' {
      if k == o || k == f - 1 {
        assert t[k] == '\n';
      } else {
        assert t[k] == body[k - o - 1];
      }
    }
    FirstOccurrence(t, CloseFence, o, f);
  }

  /** `FirstFence` pairs the first opening fence with the first closing
      fence after it. */
  lemma FirstFenceAt(t: string, o: nat, f: nat)
    requires IndexOf(t, OpenFence, 0) == Some(o)
    requires IndexOf(t, CloseFence, o + |OpenFence|) == Some(f)
    ensures FirstFence(t) == Some((o, f))
  {
  }

  /** An occurrence of a fence at `at` is the first at or after `from` when
      no backtick comes between. */
  lemma FirstOccurrence(t: string, pat: string, from: nat, at: nat)
    requires pat != [] && pat[0] == '`'
    requires from <= at && HasAt(t, at, pat)
    requires forall k | from <= k < at :: t[k] != '`'
    ensures IndexOf(t, pat, from) == Some(at)
  {
    forall k | from <= k < at ensures !HasAt(t, k, pat) {
      MismatchAt(t, k, pat);
    }
    IndexOfFinds(t, pat, from, at);
  }

  /** An empty fenced block after prose with neither a backtick nor a "{"
      shadows whatever follows it, an object included: the result is `None`. */
  lemma EmptyFenceShadowsRest(prose: string, rest: string)
    requires forall k | 0 <= k < |prose| :: prose[k] != '`' && prose[k] != '{'
    ensures ExtractJson(prose + "```json\n```" + rest).None?
  {
    var t := prose + "```json\n```" + rest;
    var o := |prose|;
    EmptyFenceAt(prose, rest);
    forall k | 0 <= k < o + |OpenFence| ensures t[k] != '{' {
      if k < o {
        assert t[k] == prose[k];
      }
    }
    assert FenceComesFirst(t);
    assert t[o + 7..o + 8] == "\n";
    FencedResult(t);
  }

  /** Where the fences of the text in `EmptyFenceShadowsRest` are. */
  lemma EmptyFenceAt(prose: string, rest: string)
    requires forall k | 0 <= k < |prose| :: prose[k] != '`'
    ensures var t := prose + "```json\n```" + rest;
            FirstFence(t) == Some((|prose|, |prose| + 8))
  {
    var t := prose + "```json\n```" + rest;
    var o := |prose|;
    forall i | 0 <= i < 11 ensures t[o + i] == "```json\n```"[i] {
    }
    forall k | 0 <= k < o ensures t[k] != '`' {
      assert t[k] == prose[k];
    }
    FirstOccurrence(t, OpenFence, 0, o);
    FirstOccurrence(t, CloseFence, o + 7, o + 8);
    FirstFenceAt(t, o, o + 8);
  }
}

=== FILE: json.dfy ===
/** JavaScript values as the route sees them: the results of `request.json()`
    and `JSON.parse` (both JSON values, section 3 of RFC 8259), `undefined`
    for a missing property, property access and truthiness. */
module Json {
  import opened Wrappers

  /** A JSON value after parsing. An object keeps its members in text order,
      duplicate names included. */
  datatype Value =
    | Null
    | Bool(b: bool)
    | Number(n: real)
    | String(s: string)
    | Array(items: seq<Value>)
    | Object(members: seq<Member>)

  datatype Member = Member(key: string, value: Value)

  /** The last member named `key`: `JSON.parse` lets a later duplicate name
      overwrite an earlier one. */
  function LastKeyIndex(ms: seq<Member>, key: string): (r: Option<nat>)
    ensures r.Some? ==> r.value < |ms| && ms[r.value].key == key
    ensures r.Some? ==> forall j | r.value < j < |ms| :: ms[j].key != key
    ensures r.None? ==> forall j | 0 <= j < |ms| :: ms[j].key != key
  {
    if ms == [] then None
    else if ms[|ms| - 1].key == key then Some(|ms| - 1)
    else
      var r := LastKeyIndex(ms[..|ms| - 1], key);
      assert forall j | 0 <= j < |ms| - 1 :: ms[j] == ms[..|ms| - 1][j];
      r
  }

  /** Property access `v[key]`, `None` standing for `undefined`. Only the keys
      the route reads are meant ("review", "sentiment", "explanation"): no
      built-in prototype and no array or string defines them, so only an
      object's own members can supply them. */
  function Get(v: Value, key: string): (r: Option<Value>)
    ensures r.None? <==> !v.Object? || forall j | 0 <= j < |v.members| :: v.members[j].key != key
    ensures r.Some? ==> exists i | 0 <= i < |v.members| ::
                          && v.members[i] == Member(key, r.value)
                          && forall j | i < j < |v.members| :: v.members[j].key != key
  {
    if !v.Object? then None
    else
      match LastKeyIndex(v.members, key)
      case None => None
      case Some(i) =>
        assert v.members[i] == Member(key, v.members[i].value);
        Some(v.members[i].value)
  }

  /** A member that no later member shadows is what property access finds. */
  lemma GetFindsLastMember(ms: seq<Member>, i: nat)
    requires i < |ms|
    requires forall j | i < j < |ms| :: ms[j].key != ms[i].key
    ensures Get(Object(ms), ms[i].key) == Some(ms[i].value)
  {
  }

  /** JavaScript truthiness; `None` is `undefined`. Numbers are falsy only at
      zero, as JSON has no NaN. */
  predicate Truthy(v: Option<Value>) {
    match v
    case None => false
    case Some(Null) => false
    case Some(Bool(b)) => b
    case Some(Number(n)) => n != 0.0
    case Some(String(s)) => s != []
    case Some(_) => true
  }

  /** ToBoolean (section 7.1.2 of ECMA-262) on JSON values and `undefined`:
      exactly `undefined`, `null`, `false`, `0` and `""` are falsy. */
  lemma FalsyValues(v: Option<Value>)
    ensures !Truthy(v) <==> v in {None, Some(Null), Some(Bool(false)), Some(Number(0.0)), Some(String(""))}
  {
  }

  /** A `string | undefined` as a value. */
  function OfString(s: Option<string>): (v: Option<Value>)
    ensures v.Some? <==> s.Some?
    ensures v.Some? ==> v.value.String? && v.value.s == s.value
  {
    match s
    case None => None
    case Some(x) => Some(String(x))
  }
}

=== FILE: scenarios.dfy ===
/** The analyze route end to end on typical requests: an accepted review, a
    short one, a prose reply, a "Mixed" label and a fenced reply, for every
    parser that reads the reply the way `JSON.parse` would and every
    starting store. */
module Scenarios {
  import opened Wrappers
  import opened Text
  import opened Json
  import Extract
  import opened Analyze

  /** `{ "review": text }`. */
  function RequestBody(text: string): Value {
    Object([Member("review", String(text))])
  }

  /** `{ "sentiment": ..., "explanation": ... }` as `JSON.parse` returns it. */
  function Verdict(sentiment: string, explanation: string): Value {
    Object([Member("sentiment", String(sentiment)), Member("explanation", String(explanation))])
  }

  /** An accepted review and a reply that is one bare JSON object carrying
      a "Positive" verdict: one row is stored with the trimmed review, the
      exact label and the explanation, and the answer echoes them. */
  lemma PositiveReviewStored(review: string, reply: string, explanation: string,
                             parse: string -> Option<Value>, store: Store)
    requires Utf16Length(Trim(review)) >= MinReviewLength
    requires 2 <= |reply| && reply[0] == '{' && reply[|reply| - 1] == '}'
    requires explanation != []
    requires parse(reply) == Some(Verdict("Positive", explanation))
    ensures var text := Trim(review);
            var row := Row(text, "Positive", String(explanation));
            var h := Handle(RequestBody(review), reply, parse, store);
            && h.outcome == Analyzed("Positive", String(explanation), text, |store.rows|)
            && h.trace == [AskModel(text), ParseJson(reply), CreateRow(row)]
            && h.store == Store(store.rows + [row])
            && Respond(h.outcome).status == 200
  {
    Extract.WholeObjectExtracted(reply);
    var body := RequestBody(review);
    GetFindsLastMember(body.members, 0);
    assert ReviewAccepted(Get(body, "review"));
    var verdict := Verdict("Positive", explanation);
    GetFindsLastMember(verdict.members, 0);
    GetFindsLastMember(verdict.members, 1);
    assert ShapeAccepted(Get(verdict, "sentiment"), Get(verdict, "explanation"));
    DecisionOrder(body, reply, parse, store);
  }

  /** A five-character review is refused with 400 before the model is asked,
      whatever the model would have said. */
  lemma ShortReviewRefused(reply: string, parse: string -> Option<Value>, store: Store)
    ensures var h := Handle(RequestBody("short"), reply, parse, store);
            && h == Handled(InvalidReview, [], store)
            && Respond(h.outcome).status == 400
  {
    assert "short"[0] == 's' && "short"[4] == 't';
    TrimKeepsTrimmed("short");
    GetFindsLastMember(RequestBody("short").members, 0);
  }

  /** A reply with neither a "{" nor a backtick — plain prose — answers 500
      "failed to generate" after one model call, and nothing is stored. */
  lemma ProseReplyRefused(review: string, reply: string, parse: string -> Option<Value>, store: Store)
    requires Utf16Length(Trim(review)) >= MinReviewLength
    requires forall k | 0 <= k < |reply| :: reply[k] != '{' && reply[k] != '`'
    ensures var h := Handle(RequestBody(review), reply, parse, store);
            && h == Handled(NoJsonInReply, [AskModel(Trim(review))], store)
            && Respond(h.outcome) == Response(500, ErrorBody(NoJsonMessage))
  {
    Extract.NoBacktickNoFence(reply);
    Extract.NoObjectNoFenceGivesNone(reply);
    GetFindsLastMember(RequestBody(review).members, 0);
  }

  /** A reply labelled "Mixed" answers 500 "missing required fields" and
      nothing is stored. */
  lemma MixedVerdictRefused(review: string, parse: string -> Option<Value>, store: Store)
    requires Utf16Length(Trim(review)) >= MinReviewLength
    requires parse("{\"sentiment\":\"Mixed\",\"explanation\":\"...\"}") == Some(Verdict("Mixed", "..."))
    ensures var reply := "{\"sentiment\":\"Mixed\",\"explanation\":\"...\"}";
            var h := Handle(RequestBody(review), reply, parse, store);
            && h == Handled(MissingFields, [AskModel(Trim(review)), ParseJson(reply)], store)
            && Respond(h.outcome) == Response(500, ErrorBody(MissingFieldsMessage))
  {
    var reply := "{\"sentiment\":\"Mixed\",\"explanation\":\"...\"}";
    var body := RequestBody(review);
    GetFindsLastMember(body.members, 0);
    assert Get(body, "review") == Some(String(review));
    assert ReviewAccepted(Get(body, "review"));
    assert |reply| == 41 && reply[0] == '{' && reply[40] == '}';
    Extract.WholeObjectExtracted(reply);
    var verdict := Verdict("Mixed", "...");
    GetFindsLastMember(verdict.members, 0);
    GetFindsLastMember(verdict.members, 1);
    NearMissesRefused(Some(String("...")));
    assert !ShapeAccepted(Get(verdict, "sentiment"), Get(verdict, "explanation"));
    DecisionOrder(body, reply, parse, store);
  }

  /** A reply that wraps an object in a "```json" fence after some prose is
      handled exactly as the bare object would be. */
  lemma FencedReplyReadAsBare(body: Value, prose: string, json: string,
                              parse: string -> Option<Value>, store: Store)
    requires forall k | 0 <= k < |prose| :: prose[k] != '`' && prose[k] != '{'
    requires forall k | 0 <= k < |json| :: json[k] != '`'
    requires 2 <= |json| && json[0] == '{' && json[|json| - 1] == '}'
    ensures var reply := prose + Extract.OpenFence + "\n" + json + "\n" + Extract.CloseFence;
            Handle(body, reply, parse, store) == Handle(body, json, parse, store)
  {
    var reply := prose + Extract.OpenFence + "\n" + json + "\n" + Extract.CloseFence;
    Extract.FencedBlockExtracted(prose, json);
    Extract.WholeObjectExtracted(json);
    ReplyReadOnlyThroughExtract(body, reply, json, parse, store);
  }
}

=== FILE: text.dfy ===
/** String primitives the route relies on: the JavaScript whitespace class
    (shared by the regex class `\s` and `String.prototype.trim`), `trim`,
    the UTF-16 `length` of a string, and substring search. */
module Text {
  import opened Wrappers

  /** JavaScript's WhiteSpace and LineTerminator code points: TAB, LF, VT, FF,
      CR, SPACE, NBSP, OGHAM SPACE MARK, U+2000..U+200A, LINE SEPARATOR,
      PARAGRAPH SEPARATOR, NNBSP, MMSP, IDEOGRAPHIC SPACE and the BOM. */
  predicate IsWhitespace(ch: char) {
    var n := ch as int;
    || 0x09 <= n <= 0x0D
    || n == 0x20 || n == 0xA0 || n == 0x1680
    || 0x2000 <= n <= 0x200A
    || n == 0x2028 || n == 0x2029 || n == 0x202F || n == 0x205F
    || n == 0x3000 || n == 0xFEFF
  }

  /** WhiteSpace, as listed in section 12.2 of ECMA-262: TAB, VT, FF, ZWNBSP
      and the space separators of Unicode category Zs. */
  const JsWhiteSpace: set<char> := {
    '\t', '\U{000B}', '\U{000C}', '\U{FEFF}',
    ' ', '\U{00A0}', '\U{1680}',
    '\U{2000}', '\U{2001}', '\U{2002}', '\U{2003}', '\U{2004}', '\U{2005}',
    '\U{2006}', '\U{2007}', '\U{2008}', '\U{2009}', '\U{200A}',
    '\U{202F}', '\U{205F}', '\U{3000}'
  }

  /** LineTerminator, as listed in section 12.3 of ECMA-262: LF, CR, LINE
      SEPARATOR and PARAGRAPH SEPARATOR. */
  const JsLineTerminator: set<char> := {'\n', '\r', '\U{2028}', '\U{2029}'}

  /** `IsWhitespace` is exactly the union that `\s` and `trim` use. */
  lemma IsWhitespaceIsJsClass(ch: char)
    ensures IsWhitespace(ch) <==> ch in JsWhiteSpace + JsLineTerminator
  {
  }

  /** Every character of `s[lo..hi]` is whitespace. */
  predicate WhitespaceIn(s: string, lo: nat, hi: nat)
    requires lo <= hi <= |s|
  {
    forall k | lo <= k < hi :: IsWhitespace(s[k])
  }

  predicate AllWhitespace(s: string) {
    WhitespaceIn(s, 0, |s|)
  }

  /** The first index at or after `k` that does not hold whitespace, or the
      end of `s`. */
  function SkipWhitespace(s: string, k: nat): (n: nat)
    requires k <= |s|
    ensures k <= n <= |s|
    ensures WhitespaceIn(s, k, n)
    ensures n < |s| ==> !IsWhitespace(s[n])
    decreases |s| - k
  {
    if k == |s| || !IsWhitespace(s[k]) then k else SkipWhitespace(s, k + 1)
  }

  /** The smallest `n` in `lo..hi` such that `s[n..hi]` is all whitespace. */
  function SkipWhitespaceBack(s: string, lo: nat, hi: nat): (n: nat)
    requires lo <= hi <= |s|
    ensures lo <= n <= hi
    ensures WhitespaceIn(s, n, hi)
    ensures lo < n ==> !IsWhitespace(s[n - 1])
    decreases hi
  {
    if hi == lo || !IsWhitespace(s[hi - 1]) then hi else SkipWhitespaceBack(s, lo, hi - 1)
  }

  /** The bounds `s[i..j]` that `trim` keeps: leading whitespace is removed
      first, then trailing whitespace from what is left. Either the whole
      string is whitespace (and nothing is kept) or both kept ends are not
      whitespace. */
  function TrimBounds(s: string): (b: (nat, nat))
    ensures b.0 <= b.1 <= |s|
    ensures WhitespaceIn(s, 0, b.0) && WhitespaceIn(s, b.1, |s|)
    ensures b.0 < |s| ==> b.0 < b.1 && !IsWhitespace(s[b.0]) && !IsWhitespace(s[b.1 - 1])
  {
    var i := SkipWhitespace(s, 0);
    (i, SkipWhitespaceBack(s, i, |s|))
  }

  /** `String.prototype.trim`. */
  function Trim(s: string): (r: string)
    ensures |r| <= |s|
    ensures r == [] || (!IsWhitespace(r[0]) && !IsWhitespace(r[|r| - 1]))
    ensures r == [] <==> AllWhitespace(s)
  {
    var b := TrimBounds(s);
    assert b.0 < |s| ==> !AllWhitespace(s);
    s[b.0..b.1]
  }

  /** `s[a..b]` is `s` with an all-whitespace prefix and suffix removed, and
      it is either empty or starts and ends with a non-whitespace character. */
  predicate IsTrimOf(s: string, a: nat, b: nat) {
    && a <= b <= |s|
    && WhitespaceIn(s, 0, a)
    && WhitespaceIn(s, b, |s|)
    && (a < b ==> !IsWhitespace(s[a]) && !IsWhitespace(s[b - 1]))
  }

  /** Trim's result is the only way to cut whitespace off both ends of `s`
      and be left with non-whitespace ends (or nothing). */
  lemma TrimUnique(s: string, a: nat, b: nat)
    requires IsTrimOf(s, a, b)
    ensures Trim(s) == s[a..b]
  {
    var (i, j) := TrimBounds(s);
    if a == b {
      assert AllWhitespace(s);
    } else {
      assert i == a;
      assert j == b;
    }
  }

  /** Trimming twice is trimming once. */
  lemma TrimIdempotent(s: string)
    ensures Trim(Trim(s)) == Trim(s)
  {
    var r := Trim(s);
    TrimUnique(r, 0, |r|);
  }

  /** A text that neither starts nor ends with whitespace is its own trim. */
  lemma TrimKeepsTrimmed(s: string)
    requires s != [] && !IsWhitespace(s[0]) && !IsWhitespace(s[|s| - 1])
    ensures Trim(s) == s
  {
    assert SkipWhitespace(s, 0) == 0;
    assert SkipWhitespaceBack(s, 0, |s|) == |s|;
    assert TrimBounds(s) == (0, |s|);
    assert s[0..|s|] == s;
  }

  /** A line holding a text with non-whitespace ends trims to that text. */
  lemma TrimLine(s: string)
    requires s != [] && !IsWhitespace(s[0]) && !IsWhitespace(s[|s| - 1])
    ensures Trim("\n" + s + "\n") == s
  {
    var p := "\n" + s + "\n";
    assert IsTrimOf(s, 0, |s|);
    PaddedTrim(s, 0, |s|);
    TrimUnique(p, 1, |s| + 1);
    assert p[1..|s| + 1] == s;
  }

  /** Cutting `s` at `a` and `b` trims it exactly when cutting it one further
      in trims `s` padded with a line break on each side. */
  lemma PaddedTrim(s: string, a: nat, b: nat)
    requires IsTrimOf(s, a, b)
    ensures IsTrimOf("\n" + s + "\n", a + 1, b + 1)
  {
    var p := "\n" + s + "\n";
    forall k | 0 <= k < a + 1 ensures IsWhitespace(p[k]) {
      if 0 < k {
        assert p[k] == s[k - 1];
      }
    }
    forall k | b + 1 <= k < |p| ensures IsWhitespace(p[k]) {
      if k <= |s| {
        assert p[k] == s[k - 1];
      }
    }
    if a < b {
      assert p[a + 1] == s[a] && p[b] == s[b - 1];
    }
  }

  /** A string's JavaScript `length`: UTF-16 code units, so a code point
      above U+FFFF counts twice. */
  function Utf16Length(s: string): (n: nat)
    ensures |s| <= n <= 2 * |s|
    ensures n == |s| <==> forall i | 0 <= i < |s| :: s[i] as int < 0x1_0000
  {
    if s == [] then 0
    else
      var rest := Utf16Length(s[1..]);
      assert forall i | 1 <= i < |s| :: s[i] == s[1..][i - 1];
      (if s[0] as int < 0x1_0000 then 1 else 2) + rest
  }

  /** One code point is one UTF-16 code unit up to U+FFFF and a surrogate
      pair above it. */
  lemma Utf16LengthChar(c: char)
    ensures Utf16Length([c]) == if c as int < 0x1_0000 then 1 else 2
  {
  }

  /** `length` adds up over concatenation; with `Utf16LengthChar` this fixes
      its value on every string. */
  lemma {:induction false} Utf16LengthConcat(a: string, b: string)
    ensures Utf16Length(a + b) == Utf16Length(a) + Utf16Length(b)
  {
    if a == [] {
      assert a + b == b;
    } else {
      assert (a + b)[1..] == a[1..] + b;
      Utf16LengthConcat(a[1..], b);
    }
  }

  /** `pat` occurs in `t` starting at index `k`. */
  predicate HasAt(t: string, k: nat, pat: string) {
    k + |pat| <= |t| && forall i | 0 <= i < |pat| :: t[k + i] == pat[i]
  }

  /** The first occurrence of `pat` in `t` at or after `from`. */
  function IndexOf(t: string, pat: string, from: nat): (r: Option<nat>)
    ensures r.Some? ==> from <= r.value && HasAt(t, r.value, pat)
    ensures r.Some? ==> forall k | from <= k < r.value :: !HasAt(t, k, pat)
    ensures r.None? ==> forall k | from <= k :: !HasAt(t, k, pat)
    decreases |t| + 1 - from
  {
    if from + |pat| > |t| then None
    else if HasAt(t, from, pat) then Some(from)
    else IndexOf(t, pat, from + 1)
  }

  /** A position whose character differs from the first of `pat` does not
      start an occurrence of `pat`. */
  lemma MismatchAt(t: string, k: nat, pat: string)
    requires k < |t| && pat != [] && t[k] != pat[0]
    ensures !HasAt(t, k, pat)
  {
    assert t[k + 0] != pat[0];
  }

  /** `IndexOf` finds the occurrence that no other precedes. */
  lemma IndexOfFinds(t: string, pat: string, from: nat, at: nat)
    requires from <= at && HasAt(t, at, pat)
    requires forall k | from <= k < at :: !HasAt(t, k, pat)
    ensures IndexOf(t, pat, from) == Some(at)
  {
  }

  /** The first index at or after `from` holding `ch`. */
  function IndexOfChar(t: string, ch: char, from: nat): (r: Option<nat>)
    ensures r.Some? ==> from <= r.value < |t| && t[r.value] == ch
    ensures r.Some? ==> forall k | from <= k < r.value :: t[k] != ch
    ensures r.None? ==> forall k | from <= k < |t| :: t[k] != ch
    decreases |t| - from
  {
    if from >= |t| then None
    else if t[from] == ch then Some(from)
    else IndexOfChar(t, ch, from + 1)
  }

  /** The last index of `t` holding `ch`. */
  function LastIndexOfChar(t: string, ch: char): (r: Option<nat>)
    ensures r.Some? ==> r.value < |t| && t[r.value] == ch
    ensures r.Some? ==> forall k | r.value < k < |t| :: t[k] != ch
    ensures r.None? ==> forall k | 0 <= k < |t| :: t[k] != ch
  {
    if t == [] then None
    else if t[|t| - 1] == ch then Some(|t| - 1)
    else
      var r := LastIndexOfChar(t[..|t| - 1], ch);
      assert forall k | 0 <= k < |t| - 1 :: t[k] == t[..|t| - 1][k];
      r
  }
}

=== FILE: wrappers.dfy ===
/** The optional-value datatype used throughout the model. `None` stands for
    JavaScript's `null`/`undefined` wherever the source returns "no value". */
module Wrappers {

  datatype Option<+T> = None | Some(value: T)
}
